=== FILE: README.md ===
# ez-board: the decision logic of a recipe board, in Dafny

ez-board is a recipe-sharing board. Visitors post recipes (title, text, author
name, optional image), search them, like them and comment on them. The hosted
backend does the storing. This project models the small amount of pure decision
logic inside the front end's event handlers:

- the home page's search filter and the state that feeds it (`HomePage`);
- the sorting of sign-in / sign-up error codes into messages, and the submit
  handler's busy flag and navigation (`AuthForm`);
- the new-post form's guard, image storage path and written document
  (`CreatePostForm`);
- the comment section's guard, trimmed record, form reset, snapshot handling,
  subscription lifecycle and confirm-before-delete (`CommentSection`);
- the post card's optimistic like counter with rollback (`PostCard`).

Every handler is a pure function. Its inputs are the form fields, the clock
readings and the outcome of each backend call. Its result is the ordered trace of
what it does (module `Effects`): raising or lowering the busy flag, issuing a
backend call, showing a notification, navigating, or adjusting the displayed like
count. `BusyWindow` says the busy flag goes up first and down last, so every call
happens while it is up and the handler always leaves it down. `Calls` lists the
backend calls in issue order.

`Text` holds the string operations the handlers use: `toLowerCase` (ASCII letters
only), `includes` (a scan, proved equal to "occurs at some position"), `trim`
(the exact ECMAScript white-space and line-terminator set) and the decimal
numeral that a number becomes inside a template literal (proved to read back).

## Model

| member | source | states |
|---|---|---|
| HomePage.Keep | app/page.tsx:53-57 | the kept posts are never more than the input, each passes the title-or-content test, and each comes from the input |
| HomePage.Matches | app/page.tsx:54-56 | the filter callback: the lowered title or the lowered content includes the already lowered term (a definition; `FilterSound` and `FilterComplete` restate it with `Contains`) |
| HomePage.FilterPosts | app/page.tsx:52-57 | a post is shown exactly when it is one of the fetched posts and its lowered title or lowered content includes the lowered term |
| HomePage.KeepMembers | app/page.tsx:53-57 | a post is kept exactly when it is in the input and passes the title-or-content test |
| HomePage.FilterIsSubsequence | app/page.tsx:53-57 | the result is the input with some posts deleted and the rest in their original order |
| HomePage.FilterCounts | app/page.tsx:53-57 | each post occurs in the result exactly as often as in the input when it matches, and never when it does not |
| HomePage.FilterSound | app/page.tsx:52-56 | every returned post has a lowered title or lowered content that contains the lowered term |
| HomePage.FilterComplete | app/page.tsx:53-57 | every input post whose lowered title or content contains the lowered term is returned |
| HomePage.FilterEmptyTerm | app/page.tsx:52-56 | the empty search term returns the posts unchanged |
| HomePage.FilterIdempotent | app/page.tsx:53-57 | filtering the result again with the same term returns it unchanged |
| HomePage.FilterIgnoresCase | app/page.tsx:52 | terms that differ only in ASCII letter case select the same posts |
| HomePage.KeepAppend | app/page.tsx:53-57 | filtering a concatenation is the concatenation of the filtered parts |
| HomePage.FilterLoop | app/page.tsx:51-59 | the one-pass filter loop computes exactly the filtered list |
| HomePage.SoupExample | app/page.tsx:51-59 | searching "soup" among "Tom Yum / spicy soup" and "Cake / sweet dessert" keeps only the soup |
| HomePage.Mounted | app/page.tsx:23-27 | the page starts loading, with no posts, and with the shown list equal to the filter of the fetched list |
| HomePage.SearchEffect | app/page.tsx:51-59 | after the search effect the shown list is the filter of the fetched list by the current term, and nothing else changes |
| HomePage.FetchFinished | app/page.tsx:29-49 | loading ends either way; on success the fetched posts are stored and the shown list stays the filter of them; on failure the load-error message is set and the lists are kept |
| HomePage.SearchChanged | app/page.tsx:51-59 | a new search term leaves the shown list equal to the filter of the fetched list by that term |
| HomePage.FetchInitialisationAgrees | app/page.tsx:38-39 | with the initial empty term, the list set directly from the fetch already equals what the search effect computes |
| AuthForm.Classify | components/auth-form.tsx:49-58 | each of the four handled codes gets its own problem, and both "user not found" and "wrong password" get the same one; any other code or a missing code is "unknown"; each case holds in both directions |
| AuthForm.Message | components/auth-form.tsx:49-57 | the Thai message shown for each kind of problem (no contract of its own; `MessageInjective` states what matters about it) |
| AuthForm.Request | components/auth-form.tsx:32-46 | the login mode calls sign-in and the signup mode calls sign-up, with the typed email and password (a definition; `HandleSubmit` states that it is the one call made) |
| AuthForm.Toasted | components/auth-form.tsx:34-63 | the notification for an outcome: the login or signup success notification, or the failure notification carrying the message chosen for the code (a definition) |
| AuthForm.Finish | components/auth-form.tsx:33-63 | after the awaited call, no call and no busy-flag change; the notifications raised are exactly one, the one for the outcome; navigation to "/" exactly on success, as the last of two steps; a failure is the single notification and nothing else |
| AuthForm.MessageInjective | components/auth-form.tsx:49-58 | the five messages are pairwise different |
| AuthForm.HandleSubmit | components/auth-form.tsx:27-67 | the busy flag is raised first and lowered last; the step after raising it is the one sign-in (login) or sign-up (signup) call; navigation to "/" happens exactly on success, right before the flag is lowered; the list of notifications raised is exactly one long, the success one for the mode or the failure one carrying the message chosen for the code (so success shows no error notification); success takes five steps and failure four |
| CreatePostForm.Submit | components/create-post-form.tsx:27-72 | an incomplete form only raises the missing-fields notification; a complete one runs inside the busy window; navigation to "/" happens exactly when the document was written; the creation-failed notification is raised exactly when the guard passed and the chosen image failed to upload or the write failed; the success notification is raised exactly when the page navigates, and comes right before the navigation, which comes right before the busy flag is lowered; every path raises exactly one notification (missing fields, created, or creation failed), so a complete form never shows the missing-fields one; "/" is the only destination |
| CreatePostForm.Body | components/create-post-form.tsx:41-68 | past the guard: the flag is untouched; navigation happens exactly when any chosen image uploaded and the write succeeded; the success notification exactly when it navigates, right before it, as the last two steps; the creation-failed notification exactly when the upload or the write failed |
| CreatePostForm.BodyNotices | components/create-post-form.tsx:41-68 | past the guard exactly one notification is raised: the success one when any chosen image uploaded and the write succeeded, otherwise the creation-failed one; the only destination is "/" |
| CreatePostForm.AfterWrite | components/create-post-form.tsx:57-68 | after the write: no call and no flag change; success raises the success notification and then navigates to "/" as the last of two steps; failure is the creation-failed notification alone; it navigates, and only to "/", exactly on success |
| CreatePostForm.Complete | components/create-post-form.tsx:29 | the guard: title, content and author are all non-empty exactly as typed, without trimming (no contract of its own; `Submit` and `SpacesPassGuard` state its effect) |
| CreatePostForm.StoragePath | components/create-post-form.tsx:44 | the clock reading and the file name read back from the path; the path starts with the `post_images/` folder and ends with the file's own name |
| CreatePostForm.Record | components/create-post-form.tsx:49-56 | the document built for the write (no contract of its own; `WrittenRecord` states its fields) |
| CreatePostForm.SubmitCalls | components/create-post-form.tsx:29-56 | the calls in order: none when rejected; otherwise the image upload under its storage path when an image was chosen, then the document write unless that upload failed |
| CreatePostForm.BodyCalls | components/create-post-form.tsx:42-56 | past the guard: the upload under the storage path comes first when an image was chosen, and the document write follows unless the upload failed |
| CreatePostForm.WrittenRecord | components/create-post-form.tsx:39-56 | the written document holds the three fields as typed, zero likes and the write-time clock; its image URL is null exactly when no image was chosen or the URL came back empty; a document is written exactly when the guard passed and no chosen image failed to upload |
| CreatePostForm.SpacesPassGuard | components/create-post-form.tsx:29 | for every form whose three fields are non-empty and all white space: each field trims to nothing, yet the guard passes, every document written carries the fields unchanged, and one is written unless a chosen image failed to upload |
| CreatePostForm.StoragePathRoundTrip | components/create-post-form.tsx:44 | the folder, a clock reading's numeral, the underscore and any name read back as that clock reading and name |
| CreatePostForm.StoragePathCollision | components/create-post-form.tsx:44 | two images get the same path exactly when they have the same clock reading and the same file name |
| CreatePostForm.StoredImageUrl | components/create-post-form.tsx:55 | an empty URL is stored as null; any other URL is stored as is |
| CreatePostForm.LeadingDigitsOfNumeral | components/create-post-form.tsx:44 | the digits of a numeral followed by the underscore are exactly the numeral |
| CommentSection.Filled | components/comment-section.tsx:66 | the guard: both inputs still hold something once trimmed (no contract of its own; `RejectedIffBlank` states it in terms of white space) |
| CommentSection.Record | components/comment-section.tsx:77-81 | the record carries the section's post id and the clock reading; each written field has non-space ends and sits in its input with white space only before and after it, which by `TrimUnique` makes it the trimmed input; the fields are non-empty exactly when the guard passes |
| CommentSection.Attempt | components/comment-section.tsx:75-95 | past the guard: one write inside the busy window, right after the flag is raised; success clears the inputs, raises no notification and takes three steps; failure keeps them, raises exactly the failure notification and takes four |
| CommentSection.SubmitComment | components/comment-section.tsx:64-96 | a blank input only raises the missing-fields notification and keeps the inputs; otherwise exactly one comment write happens inside the busy window; success clears both inputs and raises no notification; the failure notification is raised exactly when the guard passed and the write failed, and the inputs are then kept; the notifications raised are exactly one missing-fields, none, or one failure notification; a filled form takes three steps on success and four on failure |
| CommentSection.WrittenComment | components/comment-section.tsx:77-80 | every comment written has the section's post id and the clock reading, and its author and content are the trimmed inputs: non-empty, unchanged by trimming again, and each sitting in its input with white space only before and after it |
| CommentSection.WrittenCall | components/comment-section.tsx:66-81 | every comment written is the record built from the inputs, and only a submission that passed the guard writes one |
| CommentSection.RejectedIffBlank | components/comment-section.tsx:66-73 | no call is made exactly when the author or the content consists of white space only |
| CommentSection.DeleteComment | components/comment-section.tsx:99-118 | declining the confirmation does nothing; confirming issues exactly one delete of that comment, then the success or failure notification |
| CommentSection.FromSnapshot | components/comment-section.tsx:44-47 | one comment per delivered document, in delivery order, with the document's id and fields |
| CommentSection.SnapshotRoundTrip | components/comment-section.tsx:44-47 | the delivered documents can be recovered from the list |
| CommentSection.Deliver | components/comment-section.tsx:43-57 | a snapshot replaces the shown list whatever it held; an error keeps the list and raises the load-error notification |
| CommentSection.Selected | components/comment-section.tsx:39 | the query selects exactly the stored comments whose post id is the section's |
| CommentSection.OtherPostsInvisible | components/comment-section.tsx:39 | adding a comment to another post leaves this post's selection unchanged |
| CommentSection.OwnPostVisible | components/comment-section.tsx:39 | adding a comment to this post appends it to this post's selection |
| CommentSection.Mount | components/comment-section.tsx:37-41 | no subscription is opened exactly when the post id is empty |
| CommentSection.Unmount | components/comment-section.tsx:61 | the cleanup cancels a subscription exactly when one was opened |
| CommentSection.Switch | components/comment-section.tsx:36-62 | a re-run for a new post id: nothing when the id is unchanged, otherwise the old subscription's cleanup followed by the new mount (a definition; `SwitchBalance` states its balance) |
| CommentSection.Lifetime | components/comment-section.tsx:36-62 | the effect over the section's life: mounted for the first id, re-run for each change, cleaned up at the end (a definition; `LifetimeBalanced` states its balance) |
| CommentSection.LifetimeBalanced | components/comment-section.tsx:36-62 | over any sequence of post ids, every subscription opened is cancelled exactly once by teardown |
| CommentSection.SwitchBalance | components/comment-section.tsx:36-62 | a change of post id cancels the old subscription and opens the new one |
| CommentSection.RerunBalance | components/comment-section.tsx:36-62 | after the re-runs and the cleanup, what was closed equals what was opened plus the first subscription |
| PostCard.Increment | components/post-card.tsx:46-49 | the stored increment raises `likes` by one, counting a missing field as zero, and changes no other field |
| PostCard.HandleLike | components/post-card.tsx:39-60 | the first step raises the count by one and the second issues the increment of this post, its only call; success stops there; the net change is one on success and zero on failure; failure and only failure raises the like-failed notification, its only notification |
| PostCard.StoredLikes | components/post-card.tsx:30 | `post.likes || 0`: the stored count, or zero when the field is missing (no contract of its own) |
| PostCard.Initial | components/post-card.tsx:30 | the counter as first shown: the stored count, nothing in flight (no contract of its own) |
| PostCard.Step | components/post-card.tsx:43-53 | a click raises the count by one and puts one increment in flight; a settlement takes one out of flight and lowers the count by one exactly when it failed; a settlement with nothing in flight is impossible |
| PostCard.Run | components/post-card.tsx:43-53 | the events applied one after another (no contract of its own; `RunDefined` and `RunCounts` state its results) |
| PostCard.RunDefined | components/post-card.tsx:43-53 | a sequence of events can happen exactly when, at every point, the settlements so far are no more than the clicks in flight at the start plus the clicks so far |
| PostCard.RunCounts | components/post-card.tsx:43-53 | over any interleaving of clicks and settlements, the count is the start plus the clicks minus the failures, and the in-flight clicks are those not yet settled |
| PostCard.NeverBelowInitial | components/post-card.tsx:30-53 | from the card's initial count (`likes`, or 0), the count never drops below it, and once nothing is in flight it exceeds it by exactly the accepted increments |
| PostCard.ClickThenSettle | components/post-card.tsx:43-53 | a click followed by its own settlement moves the counter by the handler's net change |
| Effects.Busy | components/auth-form.tsx:29-66 | a handler body that never touches the busy flag, wrapped in raising it and a `finally` lowering it, forms a busy window with the body's calls and steps and nothing else |
| Effects.CallsAppend | components/create-post-form.tsx:42-56 | the calls of a concatenated trace are those of each part in order |
| Effects.Notices | components/create-post-form.tsx:30-34 | the notifications a trace raises, in order, are never more than its steps |
| Effects.NoticesAppend | components/create-post-form.tsx:57-68 | the notifications of a concatenated trace are those of each part in order |
| Effects.NoticeMembers | components/post-card.tsx:54-58 | a notification is raised by a trace exactly when it is in the trace's list of notifications |
| Effects.DeltaAppend | components/post-card.tsx:43-53 | the net count change of a concatenated trace is the sum of the parts' changes |
| Text.Lower | app/page.tsx:52 | the lowered string has the same length and each character lowered |
| Text.LowerIdempotent | app/page.tsx:52 | lowering twice is lowering once |
| Text.LowerEqualIff | app/page.tsx:52 | two strings have the same lowered form exactly when they differ only in ASCII letter case |
| Text.IncludesIffContains | app/page.tsx:55-56 | the left-to-right `includes` scan succeeds exactly when the term occurs at some position |
| Text.Includes | app/page.tsx:55-56 | `includes` as a left-to-right scan for a prefix match (a definition; `IncludesIffContains` relates it to "occurs at some position") |
| Text.MissingCharExcludes | app/page.tsx:55-56 | a string lacking a character of the term does not include the term |
| Text.TrimStart | components/comment-section.tsx:66 | the longest all-white-space prefix is removed |
| Text.IsSpace | components/comment-section.tsx:66 | the characters `trim` removes: ECMAScript's WhiteSpace and LineTerminator code points (a definition) |
| Text.TrimEnd | components/comment-section.tsx:66 | the longest all-white-space suffix is removed |
| Text.Trim | components/comment-section.tsx:79-80 | the result is empty or starts and ends with a non-space, and the input is the result with white space only before and after it |
| Text.TrimUnique | components/comment-section.tsx:79-80 | any string meeting the contract of `Trim` for an input is the trimmed input, so the contract determines the result |
| Text.TrimEmptyIff | components/comment-section.tsx:66 | a string trims to nothing exactly when it is all white space |
| Text.TrimIdempotent | components/comment-section.tsx:79-80 | trimming a trimmed string changes nothing |
| Text.Decimal | components/create-post-form.tsx:44 | a clock reading becomes a non-empty string of digits with no leading zero |
| Text.DecimalRoundTrip | components/create-post-form.tsx:44 | reading back the numeral gives the clock reading |

## Left out

- All backend I/O (`getDocs`, `onSnapshot`, `addDoc`, `updateDoc`, `deleteDoc`, `uploadBytes`, `getDownloadURL`, sign-in and sign-up). Each call's result is a parameter (`Outcome`), and a call is an effect in the trace.
- `uploadBytes` followed by `getDownloadURL` (components/create-post-form.tsx:45-46) is one outcome that carries the URL. Either step failing takes the same catch path.
- The backend's ordering of query results (posts newest first, comments oldest first) is not modelled. A snapshot's order is taken as delivered.
- `Date.now()` and `Timestamp.now()` are natural-number parameters. The two `Date.now()` readings of the new-post handler (lines 44 and 53) are separate parameters.
- Text.Lower: `toLowerCase` is modelled for ASCII letters only. Full Unicode case mapping is left out. Thai text has no letter case, so it is unaffected either way.
- Text.Decimal: a number in a template literal is written in exponent form from 10^21 upward. Clock readings are far below that, so only the plain decimal form is modelled.
- Notifications are tags (`Toast`). Their titles and descriptions are not reproduced, except the authentication messages and the page's load-error message.
- Router navigation is recorded only as the `Navigate` target. `window.confirm` is a boolean input.
- Locale date formatting (`toLocaleString`, `toLocaleDateString` with "th-TH") belongs to a foreign library.
- Real asynchrony: overlapping likes are an interleaving of click and settlement events (`PostCard.Run`), not threads. Each settlement belongs to some earlier click still in flight. A settlement with none in flight cannot happen and makes `Step` return `None`.
- The comment effect also re-runs when the `toast` function changes identity. That reference is stable, so only post-id changes are modelled.
- JSX, styling and the browser's `required`-attribute form validation.
- The post detail page (app/posts/[id]/page.tsx) lies outside the modelled components. Its behaviour is not modelled: the not-found and load-error branches of loading one post (lines 40-47), the confirm guard before deleting a post (lines 60-62), the `if (post?.imageUrl)` branch (line 65) whose image delete has its failure logged and swallowed so that the post is deleted anyway (lines 66-72), and the success or failure notification with the move to "/" (lines 74-86). The navbar and layout are not mounted or carry no logic.
- A document's fields are taken to contain no `id` of their own. The spread of the document data therefore never overrides the document id (app/page.tsx:34-37, components/comment-section.tsx:44-47).

=== FILE: auth_form.dfy ===
/** The submit handler of the login / sign-up form (components/auth-form.tsx). */
module AuthForm {
  import opened Results
  import opened Effects

  /** Which of the two forms is shown. */
  datatype Mode = Login | Signup

  /** The five outcomes the failure branch distinguishes. */
  datatype Problem = InvalidEmail | BadCredentials | EmailInUse | WeakPassword | Unknown

  const InvalidEmailCode: string := "auth/invalid-email"
  const UserNotFoundCode: string := "auth/user-not-found"
  const WrongPasswordCode: string := "auth/wrong-password"
  const EmailInUseCode: string := "auth/email-already-in-use"
  const WeakPasswordCode: string := "auth/weak-password"

  /** The codes that get a message of their own. */
  const KnownCodes: set<string> :=
    {InvalidEmailCode, UserNotFoundCode, WrongPasswordCode, EmailInUseCode, WeakPasswordCode}

  /** Sort an error code (absent when the error carries none) into a problem. */
  function Classify(code: Option<string>): (p: Problem)
    ensures p == InvalidEmail <==> code == Some(InvalidEmailCode)
    ensures p == BadCredentials <==> code == Some(UserNotFoundCode) || code == Some(WrongPasswordCode)
    ensures p == EmailInUse <==> code == Some(EmailInUseCode)
    ensures p == WeakPassword <==> code == Some(WeakPasswordCode)
    ensures p == Unknown <==> code.None? || code.value !in KnownCodes
  {
    match code
    case None => Unknown
    case Some(c) =>
      if c == InvalidEmailCode then InvalidEmail
      else if c == UserNotFoundCode || c == WrongPasswordCode then BadCredentials
      else if c == EmailInUseCode then EmailInUse
      else if c == WeakPasswordCode then WeakPassword
      else Unknown
  }

  /** The description shown for each problem. */
  function Message(p: Problem): string {
    match p
    case InvalidEmail => "รูปแบบอีเมลไม่ถูกต้อง"
    case BadCredentials => "อีเมลหรือรหัสผ่านไม่ถูกต้อง"
    case EmailInUse => "อีเมลนี้ถูกใช้แล้ว"
    case WeakPassword => "รหัสผ่านต้องมีความยาวอย่างน้อย 6 ตัวอักษร"
    case Unknown => "เกิดข้อผิดพลาด กรุณาลองใหม่อีกครั้ง"
  }

  /** Different problems get different messages, so the message shown tells
      the user which branch was taken. */
  lemma MessageInjective(p: Problem, q: Problem)
    ensures Message(p) == Message(q) ==> p == q
  {
  }

  /** The identity-provider call for each mode. */
  function Request(mode: Mode, email: string, password: string): Call {
    match mode
    case Login => SignIn(email, password)
    case Signup => SignUp(email, password)
  }

  /** The notification the handler raises for an outcome. */
  function Toasted(mode: Mode, outcome: Outcome<()>): Toast {
    if outcome.Failed? then AuthFailed(Message(Classify(outcome.code)))
    else if mode == Login then SignedIn else SignedUp
  }

  /** What follows the awaited call: the one notification, then on success
      the move to "/". */
  function Finish(mode: Mode, outcome: Outcome<()>): (finish: seq<Effect>)
    ensures FlagFree(finish) && Calls(finish) == []
    ensures forall t :: Notify(t) in finish <==> t == Toasted(mode, outcome)
    ensures forall path :: Navigate(path) in finish <==> outcome.Done? && path == "/"
    ensures outcome.Done? ==> |finish| == 2 && finish[1] == Navigate("/")
    ensures outcome.Failed? ==> |finish| == 1
    ensures Notices(finish) == [Toasted(mode, outcome)]
  {
    match outcome
    case Done(_) => [Notify(Toasted(mode, outcome)), Navigate("/")]
    case Failed(_) => [Notify(Toasted(mode, outcome))]
  }

  /** The submit handler, given the outcome of the identity-provider call. */
  function HandleSubmit(mode: Mode, email: string, password: string, outcome: Outcome<()>): (effects: seq<Effect>)
    ensures BusyWindow(effects)
    ensures Calls(effects) == [Request(mode, email, password)]
    ensures forall path :: Navigate(path) in effects <==> outcome.Done? && path == "/"
    // the call comes first; the one notification and any navigation follow it
    ensures effects[1] == Issue(Request(mode, email, password))
    ensures forall t :: Notify(t) in effects <==> t == Toasted(mode, outcome)
    ensures outcome.Done? ==> |effects| == 5 && effects[3] == Navigate("/")
    ensures outcome.Failed? ==> |effects| == 4
    ensures Notices(effects) == [Toasted(mode, outcome)]
  {
    var call := [Issue(Request(mode, email, password))];
    var finish := Finish(mode, outcome);
    CallsAppend(call, finish);
    NoticesAppend(call, finish);
    Busy(call + finish)
  }
}

=== FILE: comment_section.dfy ===
/** The comment list and comment form under a post
    (components/comment-section.tsx). */
module CommentSection {
  import opened Results
  import opened Text
  import opened Records
  import opened Effects

  /** The two inputs of the comment form. */
  datatype Drafts = Drafts(author: string, content: string)

  /** What a submission did, and the inputs it left behind. */
  datatype Submission = Submission(effects: seq<Effect>, drafts: Drafts)

  /** The guard: both inputs still hold something once trimmed. */
  predicate Filled(drafts: Drafts) {
    Trim(drafts.content) != [] && Trim(drafts.author) != []
  }

  /** The comment document written for a submission. */
  function Record(postId: string, drafts: Drafts, clock: nat): (r: NewComment)
    ensures r.postId == postId && r.createdAt == clock
    ensures Trimmed(r.author) && Trimmed(r.content)
    ensures Filled(drafts) <==> r.author != [] && r.content != []
    ensures exists i :: SpaceAround(drafts.author, r.author, i)
    ensures exists i :: SpaceAround(drafts.content, r.content, i)
  {
    NewComment(postId, Trim(drafts.author), Trim(drafts.content), clock)
  }

  /** What the handler does once the guard has passed: the write inside the
      busy window, then clearing the inputs or reporting the failure. */
  function Attempt(call: Call, drafts: Drafts, write: Outcome<string>): (r: Submission)
    ensures BusyWindow(r.effects) && Calls(r.effects) == [call]
    ensures r.drafts == if write.Done? then Drafts("", "") else drafts
    ensures Notify(CommentFailed) in r.effects <==> write.Failed?
    ensures write.Done? ==> forall e :: e in r.effects ==> !e.Notify?
    ensures |r.effects| == if write.Done? then 3 else 4
    ensures r.effects[1] == Issue(call)
    ensures Notices(r.effects) == if write.Done? then [] else [CommentFailed]
  {
    match write
    case Done(_) => Submission(Busy([Issue(call)]), Drafts("", ""))
    case Failed(_) =>
      CallsAppend([Issue(call)], [Notify(CommentFailed)]);
      NoticesAppend([Issue(call)], [Notify(CommentFailed)]);
      Submission(Busy([Issue(call), Notify(CommentFailed)]), drafts)
  }

  /** The submit handler: `clock` is the timestamp read for `createdAt`,
      `write` the outcome of adding the document. */
  function SubmitComment(postId: string, drafts: Drafts, clock: nat, write: Outcome<string>): (r: Submission)
    // accepted: one write, inside the busy window
    ensures Filled(drafts) ==> BusyWindow(r.effects)
    ensures Filled(drafts) ==> Calls(r.effects) == [AddComment(Record(postId, drafts, clock))]
    // inputs cleared after a successful write, kept after a failed one
    ensures Filled(drafts) && write.Done? ==> r.drafts == Drafts("", "")
    ensures write.Failed? ==> r.drafts == drafts
    // the failure is reported, and a success reports nothing
    ensures Notify(CommentFailed) in r.effects <==> Filled(drafts) && write.Failed?
    ensures Filled(drafts) && write.Done? ==> forall e :: e in r.effects ==> !e.Notify?
    // one step per action: raise, write, (report,) lower
    ensures Filled(drafts) ==> |r.effects| == if write.Done? then 3 else 4
    ensures Notices(r.effects) ==
      if !Filled(drafts) then [MissingCommentFields] else if write.Done? then [] else [CommentFailed]
    // rejected: reported, nothing sent, inputs kept
    ensures !Filled(drafts) ==> r.effects == [Notify(MissingCommentFields)] && r.drafts == drafts
  {
    if !Filled(drafts) then Submission([Notify(MissingCommentFields)], drafts)
    else Attempt(AddComment(Record(postId, drafts, clock)), drafts, write)
  }

  /** The written comment carries the section's post id and the trimmed
      inputs: each written field is non-empty, is its own trim, and sits in
      its input with space characters only before and after it. (That it
      neither starts nor ends with a space character is the contract of
      `Trim`.) */
  lemma WrittenComment(postId: string, drafts: Drafts, clock: nat, write: Outcome<string>)
    ensures forall c :: AddComment(c) in Calls(SubmitComment(postId, drafts, clock, write).effects) ==>
      && c.postId == postId && c.createdAt == clock
      && c.author == Trim(drafts.author) && c.content == Trim(drafts.content)
      && c.author != [] && c.content != []
      && (exists i :: SpaceAround(drafts.author, c.author, i))
      && (exists i :: SpaceAround(drafts.content, c.content, i))
      && Trim(c.author) == c.author && Trim(c.content) == c.content
  {
    WrittenCall(postId, drafts, clock, write);
    if Filled(drafts) {
      TrimmedField(drafts.author);
      TrimmedField(drafts.content);
    }
  }

  /** Every comment a submission writes is the record built from its inputs,
      and only a submission that passed the guard writes one. */
  lemma WrittenCall(postId: string, drafts: Drafts, clock: nat, write: Outcome<string>)
    ensures forall c :: AddComment(c) in Calls(SubmitComment(postId, drafts, clock, write).effects) ==>
      c == Record(postId, drafts, clock) && Filled(drafts)
  {
    var calls := Calls(SubmitComment(postId, drafts, clock, write).effects);
    if Filled(drafts) {
      assert calls == [AddComment(Record(postId, drafts, clock))];
    } else {
      assert calls == Calls([Notify(MissingCommentFields)]) == [];
    }
  }

  /** What the guard and `trim` guarantee about one written field. */
  lemma TrimmedField(s: string)
    requires Trim(s) != []
    ensures var t := Trim(s);
      && !IsSpace(t[0]) && !IsSpace(t[|t| - 1])
      && (exists i :: SpaceAround(s, t, i))
      && Trim(t) == t
  {
    TrimIdempotent(s);
  }

  /** A submission is rejected exactly when one of the inputs holds nothing but
      space characters. */
  lemma RejectedIffBlank(postId: string, drafts: Drafts, clock: nat, write: Outcome<string>)
    ensures Calls(SubmitComment(postId, drafts, clock, write).effects) == [] <==>
      ((forall k :: 0 <= k < |drafts.author| ==> IsSpace(drafts.author[k]))
       || (forall k :: 0 <= k < |drafts.content| ==> IsSpace(drafts.content[k])))
  {
    TrimEmptyIff(drafts.author);
    TrimEmptyIff(drafts.content);
  }

  /** The delete handler: nothing happens unless the user confirms. */
  function DeleteComment(confirmed: bool, commentId: string, outcome: Outcome<()>): (effects: seq<Effect>)
    ensures !confirmed ==> effects == []
    ensures confirmed ==> Calls(effects) == [Effects.DeleteComment(commentId)]
    ensures confirmed ==> |effects| == 2 && effects[1] == Notify(if outcome.Done? then CommentDeleted else CommentDeleteFailed)
  {
    if !confirmed then []
    else
      var toast := if outcome.Done? then CommentDeleted else CommentDeleteFailed;
      CallsAppend([Issue(Effects.DeleteComment(commentId))], [Notify(toast)]);
      [Issue(Effects.DeleteComment(commentId)), Notify(toast)]
  }

  /** A snapshot replaces the list: one entry per delivered document, in the
      delivered order, each with the document's id and fields. */
  function FromSnapshot(docs: seq<CommentDoc>): (comments: seq<Comment>)
    ensures |comments| == |docs|
    ensures forall i :: 0 <= i < |docs| ==>
      && comments[i].id == docs[i].id
      && comments[i].postId == docs[i].data.postId
      && comments[i].author == docs[i].data.author
      && comments[i].content == docs[i].data.content
      && comments[i].createdAt == docs[i].data.createdAt
  {
    if docs == [] then []
    else
      var d := docs[0];
      [Comment(d.id, d.data.postId, d.data.author, d.data.content, d.data.createdAt)] + FromSnapshot(docs[1..])
  }

  /** A delivery on the subscription: a snapshot replaces the shown list
      whatever it held; an error keeps the list and is reported. */
  function Deliver(shown: seq<Comment>, delivery: Outcome<seq<CommentDoc>>): (r: (seq<Comment>, seq<Effect>))
    ensures delivery.Done? ==> r.0 == FromSnapshot(delivery.value) && r.1 == []
    ensures delivery.Failed? ==> r.0 == shown && r.1 == [Notify(CommentLoadFailed)]
  {
    match delivery
    case Done(docs) => (FromSnapshot(docs), [])
    case Failed(_) => (shown, [Notify(CommentLoadFailed)])
  }

  /** The document a displayed comment came from. */
  function ToDoc(c: Comment): CommentDoc {
    CommentDoc(c.id, NewComment(c.postId, c.author, c.content, c.createdAt))
  }

  /** Nothing of a snapshot is lost: the documents can be recovered from the list. */
  lemma SnapshotRoundTrip(docs: seq<CommentDoc>)
    ensures |FromSnapshot(docs)| == |docs|
    ensures forall i :: 0 <= i < |docs| ==> ToDoc(FromSnapshot(docs)[i]) == docs[i]
  {
  }

  /** The documents of the comments collection that the section's query
      selects: those whose `postId` equals the section's. */
  function Selected(store: seq<CommentDoc>, postId: string): (r: seq<CommentDoc>)
    ensures forall d :: d in r <==> d in store && d.data.postId == postId
  {
    if store == [] then []
    else (if store[0].data.postId == postId then [store[0]] else []) + Selected(store[1..], postId)
  }

  /** Adding a comment to another post leaves this post's selection unchanged,
      so its subscriber sees no update. */
  lemma {:induction false} OtherPostsInvisible(store: seq<CommentDoc>, postId: string, added: CommentDoc)
    requires added.data.postId != postId
    ensures Selected(store + [added], postId) == Selected(store, postId)
  {
    if store == [] {
      assert store + [added] == [added];
    } else {
      assert (store + [added])[1..] == store[1..] + [added];
      OtherPostsInvisible(store[1..], postId, added);
    }
  }

  /** Adding a comment to this post appends it to this post's selection. */
  lemma {:induction false} OwnPostVisible(store: seq<CommentDoc>, postId: string, added: CommentDoc)
    requires added.data.postId == postId
    ensures Selected(store + [added], postId) == Selected(store, postId) + [added]
  {
    if store == [] {
      assert store + [added] == [added];
    } else {
      assert (store + [added])[1..] == store[1..] + [added];
      OwnPostVisible(store[1..], postId, added);
    }
  }

  /** The subscription the section's effect opens: none for an empty post id. */
  function Mount(postId: string): (effects: seq<Effect>)
    ensures postId == "" <==> effects == []
  {
    if postId == "" then [] else [Issue(Subscribe(postId))]
  }

  /** The effect's cleanup: cancel the subscription it opened, if any. */
  function Unmount(postId: string): (effects: seq<Effect>)
    ensures postId == "" <==> effects == []
  {
    if postId == "" then [] else [Issue(Unsubscribe(postId))]
  }

  /** The effect across the section's life: opened for the first post id,
      re-run (cleanup, then open) whenever the id changes, cleaned up at the end. */
  function Lifetime(ids: seq<string>): seq<Effect>
    requires ids != []
  {
    Mount(ids[0]) + Rerun(ids)
  }

  function Rerun(ids: seq<string>): seq<Effect>
    requires ids != []
  {
    if |ids| == 1 then Unmount(ids[0])
    else Switch(ids[0], ids[1]) + Rerun(ids[1..])
  }

  /** The effect re-running for a changed post id: the old subscription's
      cleanup, then the new subscription. Nothing happens if the id is the same. */
  function Switch(from: string, to: string): seq<Effect> {
    if from == to then [] else Unmount(from) + Mount(to)
  }

  /** The post id an effect subscribes to, if it is a subscription. */
  function Subscribed(e: Effect): multiset<string> {
    match e
    case Issue(Subscribe(id)) => multiset{id}
    case _ => multiset{}
  }

  /** The post id an effect unsubscribes from, if it is a cancellation. */
  function Unsubscribed(e: Effect): multiset<string> {
    match e
    case Issue(Unsubscribe(id)) => multiset{id}
    case _ => multiset{}
  }

  /** The post ids subscribed to in a trace. */
  function Opened(effects: seq<Effect>): multiset<string> {
    if effects == [] then multiset{} else Subscribed(effects[0]) + Opened(effects[1..])
  }

  /** The post ids unsubscribed from in a trace. */
  function Closed(effects: seq<Effect>): multiset<string> {
    if effects == [] then multiset{} else Unsubscribed(effects[0]) + Closed(effects[1..])
  }

  /** The id as a one-element multiset, or nothing for the empty id. */
  function Live(postId: string): multiset<string> {
    if postId == "" then multiset{} else multiset{postId}
  }

  lemma MountCounts(postId: string)
    ensures Opened(Mount(postId)) == Live(postId) && Closed(Mount(postId)) == multiset{}
    ensures Opened(Unmount(postId)) == multiset{} && Closed(Unmount(postId)) == Live(postId)
  {
  }

  lemma {:induction false} OpenedClosedAppend(a: seq<Effect>, b: seq<Effect>)
    ensures Opened(a + b) == Opened(a) + Opened(b)
    ensures Closed(a + b) == Closed(a) + Closed(b)
  {
    if a == [] {
      assert a + b == b;
    } else {
      assert (a + b)[1..] == a[1..] + b;
      OpenedClosedAppend(a[1..], b);
    }
  }

  /** Every subscription the section opens is cancelled, once, by the time it is torn down. */
  lemma LifetimeBalanced(ids: seq<string>)
    requires ids != []
    ensures Opened(Lifetime(ids)) == Closed(Lifetime(ids))
  {
    OpenedClosedAppend(Mount(ids[0]), Rerun(ids));
    MountCounts(ids[0]);
    RerunBalance(ids);
  }

  /** A switch closes the old subscription and opens the new one. */
  lemma SwitchBalance(from: string, to: string)
    ensures Opened(Switch(from, to)) + Live(from) == Closed(Switch(from, to)) + Live(to)
  {
    if from != to {
      OpenedClosedAppend(Unmount(from), Mount(to));
      MountCounts(from);
      MountCounts(to);
    }
  }

  /** What the re-runs open, plus the first subscription, is what they close. */
  lemma {:induction false} RerunBalance(ids: seq<string>)
    requires ids != []
    ensures Opened(Rerun(ids)) + Live(ids[0]) == Closed(Rerun(ids))
  {
    if |ids| == 1 {
      MountCounts(ids[0]);
    } else {
      var step, rest := Switch(ids[0], ids[1]), Rerun(ids[1..]);
      RerunBalance(ids[1..]);
      SwitchBalance(ids[0], ids[1]);
      OpenedClosedAppend(step, rest);
      calc {
        Opened(Rerun(ids)) + Live(ids[0]);
        Opened(step) + Opened(rest) + Live(ids[0]);
        (Opened(step) + Live(ids[0])) + Opened(rest);
        Closed(step) + (Opened(rest) + Live(ids[1]));
        Closed(step) + Closed(rest);
        Closed(Rerun(ids));
      }
    }
  }
}

=== FILE: create_post_form.dfy ===
/** The submit handler of the new-post form (components/create-post-form.tsx). */
module CreatePostForm {
  import opened Results
  import opened Text
  import opened Records
  import opened Effects

  /** The chosen image file; only its name matters here. */
  datatype ImageFile = ImageFile(name: string)

  /** The form's inputs at the moment of submission. */
  datatype Form = Form(title: string, content: string, author: string, image: Option<ImageFile>)

  /** The object-store folder that receives post images. */
  const ImageFolder: string := "post_images/"

  /** The guard: all three text fields are non-empty, exactly as typed (no trimming). */
  predicate Complete(form: Form) {
    form.title != "" && form.content != "" && form.author != ""
  }

  /** The object-store path of an uploaded image: the folder, the clock
      reading in decimal, an underscore, and the file's own name. */
  function StoragePath(clock: nat, file: ImageFile): (path: string)
    ensures ParseStoragePath(path) == Some((clock, file.name))
    ensures ImageFolder <= path
    ensures |path| >= |ImageFolder| + 2 + |file.name| && path[|path| - |file.name|..] == file.name
  {
    StoragePathRoundTrip(clock, file.name);
    ImageFolder + Decimal(clock) + "_" + file.name
  }

  /** The number of leading digit characters of `s`. */
  function LeadingDigits(s: string): (n: nat)
    ensures n <= |s|
    ensures forall i :: 0 <= i < n ==> IsDigit(s[i])
    ensures n < |s| ==> !IsDigit(s[n])
  {
    if s != [] && IsDigit(s[0]) then 1 + LeadingDigits(s[1..]) else 0
  }

  /** Read a storage path back into its clock reading and file name. */
  function ParseStoragePath(path: string): Option<(nat, string)> {
    if !(ImageFolder <= path) then None
    else
      var rest := path[|ImageFolder|..];
      var n := LeadingDigits(rest);
      if n == 0 || n == |rest| || rest[n] != '_' then None
      else Some((ParseDecimal(rest[..n]), rest[n + 1..]))
  }

  /** A run of digits followed by a non-digit is exactly the leading digits. */
  lemma {:induction false} LeadingDigitsOfNumeral(digits: string, rest: string)
    requires forall i :: 0 <= i < |digits| ==> IsDigit(digits[i])
    requires rest == [] || !IsDigit(rest[0])
    ensures LeadingDigits(digits + rest) == |digits|
  {
    if digits == [] {
      assert digits + rest == rest;
    } else {
      assert (digits + rest)[1..] == digits[1..] + rest;
      LeadingDigitsOfNumeral(digits[1..], rest);
    }
  }

  /** The clock reading and the file name can be read back from the folder,
      the numeral, the underscore and the name. */
  lemma StoragePathRoundTrip(clock: nat, name: string)
    ensures ParseStoragePath(ImageFolder + Decimal(clock) + "_" + name) == Some((clock, name))
  {
    var d := Decimal(clock);
    var path := ImageFolder + Decimal(clock) + "_" + name;
    assert path == ImageFolder + (d + ("_" + name));
    var rest := path[|ImageFolder|..];
    assert rest == d + ("_" + name);
    LeadingDigitsOfNumeral(d, "_" + name);
    assert rest[..|d|] == d;
    assert rest[|d| + 1..] == name;
    DecimalRoundTrip(clock);
  }

  /** Two uploads share a path exactly when they share the clock reading and
      the file name; nothing else keeps images apart. */
  lemma StoragePathCollision(c1: nat, f1: ImageFile, c2: nat, f2: ImageFile)
    ensures StoragePath(c1, f1) == StoragePath(c2, f2) <==> c1 == c2 && f1.name == f2.name
  {
  }

  /** `imageUrl || null`: the empty string is stored as null. */
  function StoredImageUrl(url: string): (r: Option<string>)
    ensures r.None? <==> url == ""
    ensures r.Some? ==> r.value == url
  {
    if url == "" then None else Some(url)
  }

  /** The document the handler writes once the image, if any, is uploaded. */
  function Record(form: Form, clock: nat, url: string): NewPost {
    NewPost(form.title, form.content, form.author, clock, 0, StoredImageUrl(url))
  }

  /** The steps after the document write. */
  function AfterWrite(write: Outcome<string>): (effects: seq<Effect>)
    ensures Calls(effects) == [] && FlagFree(effects)
    ensures forall path :: Navigate(path) in effects <==> write.Done? && path == "/"
    ensures Notices(effects) == [if write.Done? then PostCreated else PostCreateFailed]
    ensures |effects| == if write.Done? then 2 else 1
    ensures Notify(PostCreated) in effects <==> write.Done?
    ensures Notify(PostCreateFailed) in effects <==> write.Failed?
    // on success the notification comes first and navigation ends the steps
    ensures write.Done? ==> |effects| >= 2 && effects[|effects| - 1] == Navigate("/")
                            && effects[|effects| - 2] == Notify(PostCreated)
  {
    match write
    case Done(_) => [Notify(PostCreated), Navigate("/")]
    case Failed(_) => [Notify(PostCreateFailed)]
  }

  /** The post was created: any chosen image uploaded and the document was written. */
  predicate Created(form: Form, upload: Outcome<string>, write: Outcome<string>) {
    (form.image.None? || upload.Done?) && write.Done?
  }

  /** What the handler does once the guard has passed, inside its busy window:
      upload the chosen image, if any, then write the document unless the
      upload failed. */
  function Body(form: Form, pathClock: nat, writeClock: nat, upload: Outcome<string>, write: Outcome<string>): (body: seq<Effect>)
    ensures FlagFree(body)
    ensures Navigate("/") in body <==> (form.image.None? || upload.Done?) && write.Done?
    ensures Notify(PostCreated) in body <==> Navigate("/") in body
    ensures Notify(PostCreateFailed) in body <==>
      (form.image.Some? && upload.Failed?) || ((form.image.None? || upload.Done?) && write.Failed?)
    ensures Navigate("/") in body ==> |body| >= 2 && body[|body| - 1] == Navigate("/")
                                      && body[|body| - 2] == Notify(PostCreated)
  {
    match form.image
    case None =>
      [Issue(AddPost(Record(form, writeClock, "")))] + AfterWrite(write)
    case Some(file) =>
      match upload
      case Failed(_) => [Issue(UploadImage(StoragePath(pathClock, file))), Notify(PostCreateFailed)]
      case Done(url) =>
        [Issue(UploadImage(StoragePath(pathClock, file))), Issue(AddPost(Record(form, writeClock, url)))]
        + AfterWrite(write)
  }

  /** Past the guard the handler raises exactly one notification, the success
      or the creation-failed one, and moves to no page but "/". */
  lemma BodyNotices(form: Form, pathClock: nat, writeClock: nat, upload: Outcome<string>, write: Outcome<string>)
    ensures var body := Body(form, pathClock, writeClock, upload, write);
      && Notices(body) == [if Created(form, upload, write) then PostCreated else PostCreateFailed]
      && forall path :: Navigate(path) in body ==> path == "/"
  {
    match form.image
    case None =>
      NoticesAppend([Issue(AddPost(Record(form, writeClock, "")))], AfterWrite(write));
    case Some(file) =>
      var uploading := [Issue(UploadImage(StoragePath(pathClock, file)))];
      match upload
      case Failed(_) =>
        NoticesAppend(uploading, [Notify(PostCreateFailed)]);
        assert uploading + [Notify(PostCreateFailed)] == Body(form, pathClock, writeClock, upload, write);
      case Done(url) =>
        var writing := [Issue(AddPost(Record(form, writeClock, url)))];
        NoticesAppend(uploading, writing);
        assert uploading + writing == [uploading[0], writing[0]];
        NoticesAppend(uploading + writing, AfterWrite(write));
  }

  /** The submit handler. `pathClock` and `writeClock` are the two separate
      readings of the clock (for the image path and for `createdAt`); `upload`
      is the outcome of uploading the image and asking for its URL; `write` the
      outcome of adding the document. */
  function Submit(form: Form, pathClock: nat, writeClock: nat, upload: Outcome<string>, write: Outcome<string>): (effects: seq<Effect>)
    ensures !Complete(form) <==> effects == [Notify(MissingPostFields)]
    ensures Complete(form) ==> BusyWindow(effects)
    ensures Navigate("/") in effects <==> Complete(form) && (form.image.None? || upload.Done?) && write.Done?
    // every failure past the guard is reported; success is reported, then the
    // page moves to "/" and the busy flag is lowered last
    ensures Notify(PostCreateFailed) in effects <==>
      Complete(form) && ((form.image.Some? && upload.Failed?) || ((form.image.None? || upload.Done?) && write.Failed?))
    ensures Notify(PostCreated) in effects <==> Navigate("/") in effects
    ensures Navigate("/") in effects ==> |effects| >= 3 && effects[|effects| - 2] == Navigate("/")
                                         && effects[|effects| - 3] == Notify(PostCreated)
    // exactly one notification on every path, and "/" is the only destination
    ensures Notices(effects) ==
      [if !Complete(form) then MissingPostFields
       else if Created(form, upload, write) then PostCreated else PostCreateFailed]
    ensures forall path :: Navigate(path) in effects ==> path == "/"
  {
    if !Complete(form) then [Notify(MissingPostFields)]
    else
      BodyNotices(form, pathClock, writeClock, upload, write);
      Busy(Body(form, pathClock, writeClock, upload, write))
  }

  /** The calls of the guarded part, in order. */
  lemma BodyCalls(form: Form, pathClock: nat, writeClock: nat, upload: Outcome<string>, write: Outcome<string>)
    ensures var calls := Calls(Body(form, pathClock, writeClock, upload, write));
      && (form.image.None? ==> calls == [AddPost(Record(form, writeClock, ""))])
      && (form.image.Some? && upload.Failed? ==> calls == [UploadImage(StoragePath(pathClock, form.image.value))])
      && (form.image.Some? && upload.Done? ==>
            calls == [UploadImage(StoragePath(pathClock, form.image.value)), AddPost(Record(form, writeClock, upload.value))])
  {
    match form.image
    case None =>
      CallsAppend([Issue(AddPost(Record(form, writeClock, "")))], AfterWrite(write));
    case Some(file) =>
      var uploading := [Issue(UploadImage(StoragePath(pathClock, file)))];
      if upload.Done? {
        var writing := [Issue(AddPost(Record(form, writeClock, upload.value)))];
        CallsAppend(uploading, writing);
        assert uploading + writing == [uploading[0], writing[0]];
        CallsAppend(uploading + writing, AfterWrite(write));
      } else {
        CallsAppend(uploading, [Notify(PostCreateFailed)]);
        assert [Issue(UploadImage(StoragePath(pathClock, file))), Notify(PostCreateFailed)] == uploading + [Notify(PostCreateFailed)];
      }
  }

  /** The calls the handler makes, in order: nothing when the guard rejects;
      otherwise the upload under the image's storage path when an image was
      chosen, then the document write unless the upload failed. */
  lemma SubmitCalls(form: Form, pathClock: nat, writeClock: nat, upload: Outcome<string>, write: Outcome<string>)
    ensures var calls := Calls(Submit(form, pathClock, writeClock, upload, write));
      && (!Complete(form) ==> calls == [])
      && (Complete(form) && form.image.None? ==> calls == [AddPost(Record(form, writeClock, ""))])
      && (Complete(form) && form.image.Some? && upload.Failed? ==>
            calls == [UploadImage(StoragePath(pathClock, form.image.value))])
      && (Complete(form) && form.image.Some? && upload.Done? ==>
            calls == [UploadImage(StoragePath(pathClock, form.image.value)), AddPost(Record(form, writeClock, upload.value))])
  {
    BodyCalls(form, pathClock, writeClock, upload, write);
  }

  /** The document that is written: the three fields exactly as typed, no
      likes, the clock reading, and the image URL or null when no image was
      chosen (or the URL came back empty). It is written exactly when the
      guard passed and no chosen image failed to upload. */
  lemma WrittenRecord(form: Form, pathClock: nat, writeClock: nat, upload: Outcome<string>, write: Outcome<string>)
    ensures var calls := Calls(Submit(form, pathClock, writeClock, upload, write));
      forall p :: AddPost(p) in calls ==>
        && p.title == form.title && p.content == form.content && p.author == form.author
        && p.likes == 0 && p.createdAt == writeClock
        && (p.imageUrl.None? <==> form.image.None? || upload == Done(""))
        && (p.imageUrl.Some? ==> upload == Done(p.imageUrl.value))
    ensures var calls := Calls(Submit(form, pathClock, writeClock, upload, write));
      (exists p :: AddPost(p) in calls) <==> Complete(form) && (form.image.None? || upload.Done?)
  {
    SubmitCalls(form, pathClock, writeClock, upload, write);
    PostsWritten(form, pathClock, writeClock, upload, Calls(Submit(form, pathClock, writeClock, upload, write)));
  }

  /** The documents among calls shaped as the handler issues them. */
  lemma PostsWritten(form: Form, pathClock: nat, writeClock: nat, upload: Outcome<string>, calls: seq<Call>)
    requires !Complete(form) ==> calls == []
    requires Complete(form) && form.image.None? ==> calls == [AddPost(Record(form, writeClock, ""))]
    requires Complete(form) && form.image.Some? && upload.Failed? ==>
      calls == [UploadImage(StoragePath(pathClock, form.image.value))]
    requires Complete(form) && form.image.Some? && upload.Done? ==>
      calls == [UploadImage(StoragePath(pathClock, form.image.value)), AddPost(Record(form, writeClock, upload.value))]
    ensures forall p :: AddPost(p) in calls ==>
      && p.title == form.title && p.content == form.content && p.author == form.author
      && p.likes == 0 && p.createdAt == writeClock
      && (p.imageUrl.None? <==> form.image.None? || upload == Done(""))
      && (p.imageUrl.Some? ==> upload == Done(p.imageUrl.value))
    ensures (exists p :: AddPost(p) in calls) <==> Complete(form) && (form.image.None? || upload.Done?)
  {
    if Complete(form) && (form.image.None? || upload.Done?) {
      var url := if form.image.None? then "" else upload.value;
      assert AddPost(Record(form, writeClock, url)) in calls;
    }
  }

  /** The guard does not trim: a form whose fields are non-empty but hold
      space characters only passes it, although each field trims to nothing,
      and the document is written with the fields exactly as typed unless a
      chosen image failed to upload. */
  lemma SpacesPassGuard(form: Form, pathClock: nat, writeClock: nat, upload: Outcome<string>, write: Outcome<string>)
    requires form.title != [] && form.content != [] && form.author != []
    requires forall k :: 0 <= k < |form.title| ==> IsSpace(form.title[k])
    requires forall k :: 0 <= k < |form.content| ==> IsSpace(form.content[k])
    requires forall k :: 0 <= k < |form.author| ==> IsSpace(form.author[k])
    ensures Trim(form.title) == [] && Trim(form.content) == [] && Trim(form.author) == []
    ensures Complete(form)
    ensures var calls := Calls(Submit(form, pathClock, writeClock, upload, write));
      && (forall p :: AddPost(p) in calls ==>
            p.title == form.title && p.content == form.content && p.author == form.author)
      && ((exists p :: AddPost(p) in calls) <==> form.image.None? || upload.Done?)
  {
    TrimEmptyIff(form.title);
    TrimEmptyIff(form.content);
    TrimEmptyIff(form.author);
    WrittenRecord(form, pathClock, writeClock, upload, write);
  }
}

=== FILE: effects.dfy ===
/** What an event handler does, in order: flips its busy flag, issues backend
    calls, shows notifications, navigates, or adjusts a displayed counter. A
    handler is modelled as a pure function from its inputs and the outcomes of
    its backend calls to this trace. */
module Effects {
  import opened Records

  /** The notifications the handlers raise (title and description collapsed
      into one tag; the authentication failure keeps its chosen message). */
  datatype Toast =
    | SignedIn
    | SignedUp
    | AuthFailed(message: string)
    | MissingPostFields
    | PostCreated
    | PostCreateFailed
    | MissingCommentFields
    | CommentFailed
    | CommentLoadFailed
    | CommentDeleted
    | CommentDeleteFailed
    | LikeFailed
  {
    /** Shown with the destructive (error) variant. */
    predicate Destructive() {
      !(SignedIn? || SignedUp? || PostCreated? || CommentDeleted?)
    }
  }

  /** A request to the identity provider, the document store or the object store. */
  datatype Call =
    | SignIn(email: string, password: string)
    | SignUp(email: string, password: string)
    | UploadImage(path: string)
    | AddPost(post: NewPost)
    | Subscribe(postId: string)
    | Unsubscribe(postId: string)
    | AddComment(comment: NewComment)
    | DeleteComment(commentId: string)
    | IncrementLikes(postId: string)

  /** One step of a handler. */
  datatype Effect =
    | SetSubmitting(on: bool)
    | Issue(call: Call)
    | Notify(toast: Toast)
    | Navigate(path: string)
    | AdjustLikes(delta: int)

  /** The busy flag is raised by the first step and lowered by the last one,
      with no other change in between, so every call of the handler happens
      while the flag is up and the handler leaves it down. */
  predicate BusyWindow(effects: seq<Effect>) {
    && |effects| >= 2
    && effects[0] == SetSubmitting(true)
    && effects[|effects| - 1] == SetSubmitting(false)
    && forall i :: 0 < i < |effects| - 1 ==> !effects[i].SetSubmitting?
  }

  /** No step of the trace touches the busy flag. */
  predicate FlagFree(effects: seq<Effect>) {
    forall i :: 0 <= i < |effects| ==> !effects[i].SetSubmitting?
  }

  /** A handler body run between `setIsSubmitting(true)` and the `finally`
      that sets it back to false. */
  function Busy(body: seq<Effect>): (effects: seq<Effect>)
    requires FlagFree(body)
    ensures BusyWindow(effects)
    ensures Calls(effects) == Calls(body)
    ensures Notices(effects) == Notices(body)
    ensures |effects| == |body| + 2 && forall i :: 0 <= i < |body| ==> effects[i + 1] == body[i]
    ensures forall e :: e in body ==> e in effects
    ensures forall e :: e in effects ==> e in body || e.SetSubmitting?
  {
    var effects := [SetSubmitting(true)] + body + [SetSubmitting(false)];
    assert forall i :: 0 < i < |effects| - 1 ==> effects[i] == body[i - 1];
    CallsAppend([SetSubmitting(true)] + body, [SetSubmitting(false)]);
    CallsAppend([SetSubmitting(true)], body);
    NoticesAppend([SetSubmitting(true)] + body, [SetSubmitting(false)]);
    NoticesAppend([SetSubmitting(true)], body);
    effects
  }

  /** The backend calls of a trace, in the order they are issued. */
  function Calls(effects: seq<Effect>): (r: seq<Call>)
    ensures |r| <= |effects|
  {
    if effects == [] then []
    else (if effects[0].Issue? then [effects[0].call] else []) + Calls(effects[1..])
  }

  /** The notifications of a trace, in the order they are shown. */
  function Notices(effects: seq<Effect>): (r: seq<Toast>)
    ensures |r| <= |effects|
  {
    if effects == [] then []
    else (if effects[0].Notify? then [effects[0].toast] else []) + Notices(effects[1..])
  }

  /** The notifications of a concatenation are those of each part, in order. */
  lemma {:induction false} NoticesAppend(a: seq<Effect>, b: seq<Effect>)
    ensures Notices(a + b) == Notices(a) + Notices(b)
  {
    if a != [] {
      assert (a + b)[1..] == a[1..] + b;
      NoticesAppend(a[1..], b);
    } else {
      assert a + b == b;
    }
  }

  /** A notification is raised by a trace exactly when it is among its notifications. */
  lemma {:induction false} NoticeMembers(effects: seq<Effect>, t: Toast)
    ensures Notify(t) in effects <==> t in Notices(effects)
  {
    if effects != [] {
      NoticeMembers(effects[1..], t);
      assert effects == [effects[0]] + effects[1..];
    }
  }

  /** The net change a trace makes to a displayed counter. */
  function Delta(effects: seq<Effect>): int {
    if effects == [] then 0
    else (if effects[0].AdjustLikes? then effects[0].delta else 0) + Delta(effects[1..])
  }

  /** The net change of a concatenation is the sum of the net changes. */
  lemma {:induction false} DeltaAppend(a: seq<Effect>, b: seq<Effect>)
    ensures Delta(a + b) == Delta(a) + Delta(b)
  {
    if a != [] {
      assert (a + b)[1..] == a[1..] + b;
      DeltaAppend(a[1..], b);
    } else {
      assert a + b == b;
    }
  }

  /** The calls of a concatenation are the calls of each part, in order. */
  lemma {:induction false} CallsAppend(a: seq<Effect>, b: seq<Effect>)
    ensures Calls(a + b) == Calls(a) + Calls(b)
  {
    if a != [] {
      assert (a + b)[1..] == a[1..] + b;
      CallsAppend(a[1..], b);
    } else {
      assert a + b == b;
    }
  }
}

=== FILE: home_page.dfy ===
/** The home page (app/page.tsx): the fetched post list and the search box
    that narrows it. */
module HomePage {
  import opened Results
  import opened Text
  import opened Records

  /** The filter's test for one post, given the already lowered search term:
      its lowered title or its lowered content includes the term. */
  predicate Matches(post: Post, needle: string) {
    Includes(Lower(post.title), needle) || Includes(Lower(post.content), needle)
  }

  /** The posts that pass the test, in their original order. */
  function Keep(posts: seq<Post>, needle: string): (r: seq<Post>)
    ensures |r| <= |posts|
    ensures forall i :: 0 <= i < |r| ==> Matches(r[i], needle)
    ensures forall p :: p in r ==> p in posts
  {
    if posts == [] then []
    else (if Matches(posts[0], needle) then [posts[0]] else []) + Keep(posts[1..], needle)
  }

  /** The search effect: lower the term once, then keep the matching posts. */
  function FilterPosts(allPosts: seq<Post>, searchTerm: string): (r: seq<Post>)
    ensures forall p :: p in r <==> p in allPosts && Matches(p, Lower(searchTerm))
  {
    KeepMembers(allPosts, Lower(searchTerm));
    Keep(allPosts, Lower(searchTerm))
  }

  /** `a` is obtained from `b` by deleting elements, keeping the rest in order:
      the head of `b` is either kept as the head of `a` or dropped. */
  predicate Subsequence<T(==)>(a: seq<T>, b: seq<T>)
    decreases |b|
  {
    if b == [] then a == []
    else (a != [] && a[0] == b[0] && Subsequence(a[1..], b[1..])) || Subsequence(a, b[1..])
  }

  /** Keeping distributes over concatenation. */
  lemma {:induction false} KeepAppend(a: seq<Post>, b: seq<Post>, needle: string)
    ensures Keep(a + b, needle) == Keep(a, needle) + Keep(b, needle)
  {
    if a == [] {
      assert a + b == b;
    } else {
      assert (a + b)[1..] == a[1..] + b;
      KeepAppend(a[1..], b, needle);
    }
  }

  /** The result keeps the relative order of `allPosts`. */
  lemma {:induction false} FilterIsSubsequence(allPosts: seq<Post>, searchTerm: string)
    ensures Subsequence(FilterPosts(allPosts, searchTerm), allPosts)
  {
    KeepSubsequence(allPosts, Lower(searchTerm));
  }

  lemma {:induction false} KeepSubsequence(posts: seq<Post>, needle: string)
    ensures Subsequence(Keep(posts, needle), posts)
  {
    if posts != [] {
      KeepSubsequence(posts[1..], needle);
      var rest := Keep(posts[1..], needle);
      if Matches(posts[0], needle) {
        assert Keep(posts, needle) == [posts[0]] + rest;
        assert ([posts[0]] + rest)[1..] == rest;
      } else {
        assert Keep(posts, needle) == [] + rest == rest;
      }
    }
  }

  /** Each post occurs in the result exactly as often as in `allPosts` when it
      matches, and not at all otherwise. */
  lemma {:induction false} FilterCounts(allPosts: seq<Post>, searchTerm: string, p: Post)
    ensures multiset(FilterPosts(allPosts, searchTerm))[p]
         == if Matches(p, Lower(searchTerm)) then multiset(allPosts)[p] else 0
  {
    KeepCounts(allPosts, Lower(searchTerm), p);
  }

  lemma {:induction false} KeepCounts(posts: seq<Post>, needle: string, p: Post)
    ensures multiset(Keep(posts, needle))[p] == if Matches(p, needle) then multiset(posts)[p] else 0
  {
    if posts != [] {
      KeepCounts(posts[1..], needle, p);
      var head := if Matches(posts[0], needle) then [posts[0]] else [];
      assert multiset(Keep(posts, needle)) == multiset(head) + multiset(Keep(posts[1..], needle));
      assert posts == [posts[0]] + posts[1..];
      assert multiset(posts) == multiset([posts[0]]) + multiset(posts[1..]);
    }
  }

  /** A post is kept exactly when it is one of the posts and matches. */
  lemma KeepMembers(posts: seq<Post>, needle: string)
    ensures forall p :: p in Keep(posts, needle) <==> p in posts && Matches(p, needle)
  {
    forall p | p in posts && Matches(p, needle)
      ensures p in Keep(posts, needle)
    {
      KeepCounts(posts, needle, p);
    }
  }

  /** Soundness: every returned post has a lowered title or content that
      contains the lowered search term. */
  lemma FilterSound(allPosts: seq<Post>, searchTerm: string)
    ensures forall post :: post in FilterPosts(allPosts, searchTerm) ==>
      Contains(Lower(post.title), Lower(searchTerm)) || Contains(Lower(post.content), Lower(searchTerm))
  {
    var r := FilterPosts(allPosts, searchTerm);
    forall post | post in r
      ensures Contains(Lower(post.title), Lower(searchTerm)) || Contains(Lower(post.content), Lower(searchTerm))
    {
      IncludesIffContains(Lower(post.title), Lower(searchTerm));
      IncludesIffContains(Lower(post.content), Lower(searchTerm));
    }
  }

  /** Completeness: every post of `allPosts` whose lowered title or content
      contains the lowered search term is returned. */
  lemma FilterComplete(allPosts: seq<Post>, searchTerm: string)
    ensures forall post ::
      (post in allPosts
       && (Contains(Lower(post.title), Lower(searchTerm)) || Contains(Lower(post.content), Lower(searchTerm))))
      ==> post in FilterPosts(allPosts, searchTerm)
  {
    forall post | post in allPosts &&
      (Contains(Lower(post.title), Lower(searchTerm)) || Contains(Lower(post.content), Lower(searchTerm)))
      ensures post in FilterPosts(allPosts, searchTerm)
    {
      IncludesIffContains(Lower(post.title), Lower(searchTerm));
      IncludesIffContains(Lower(post.content), Lower(searchTerm));
      FilterCounts(allPosts, searchTerm, post);
    }
  }

  /** The empty search term keeps every post. */
  lemma {:induction false} FilterEmptyTerm(allPosts: seq<Post>)
    ensures FilterPosts(allPosts, "") == allPosts
  {
    KeepAll(allPosts, "");
  }

  /** When every post matches, nothing is dropped. */
  lemma {:induction false} KeepAll(posts: seq<Post>, needle: string)
    requires forall i :: 0 <= i < |posts| ==> Matches(posts[i], needle)
    ensures Keep(posts, needle) == posts
  {
    if posts != [] {
      KeepAll(posts[1..], needle);
    }
  }

  /** Filtering the result again with the same term changes nothing. */
  lemma FilterIdempotent(allPosts: seq<Post>, searchTerm: string)
    ensures FilterPosts(FilterPosts(allPosts, searchTerm), searchTerm) == FilterPosts(allPosts, searchTerm)
  {
    var r := FilterPosts(allPosts, searchTerm);
    KeepAll(r, Lower(searchTerm));
  }

  /** Terms that differ only in the case of ASCII letters select the same posts. */
  lemma FilterIgnoresCase(allPosts: seq<Post>, a: string, b: string)
    requires SameIgnoringCase(a, b)
    ensures FilterPosts(allPosts, a) == FilterPosts(allPosts, b)
  {
    LowerEqualIff(a, b);
  }

  /** The filter as the page runs it: one pass over the posts, appending each
      post whose title or content includes the lowered term. */
  method FilterLoop(allPosts: seq<Post>, searchTerm: string) returns (results: seq<Post>)
    ensures results == FilterPosts(allPosts, searchTerm)
  {
    var needle := Lower(searchTerm);
    results := [];
    var i := 0;
    while i < |allPosts|
      invariant 0 <= i <= |allPosts|
      invariant results == Keep(allPosts[..i], needle)
    {
      KeepAppend(allPosts[..i], [allPosts[i]], needle);
      assert allPosts[..i + 1] == allPosts[..i] + [allPosts[i]];
      if Includes(Lower(allPosts[i].title), needle) || Includes(Lower(allPosts[i].content), needle) {
        results := results + [allPosts[i]];
      }
      i := i + 1;
    }
    assert allPosts[..i] == allPosts;
  }

  const LoadFailedMessage: string := "ไม่สามารถโหลดสูตรอาหารได้ กรุณาลองใหม่อีกครั้งในภายหลัง"

  /** The page's state. */
  datatype Page = Page(
    allPosts: seq<Post>,
    filteredPosts: seq<Post>,
    loading: bool,
    error: Option<string>,
    searchTerm: string)

  /** The displayed list is the filter of the fetched list by the current term. */
  predicate Consistent(page: Page) {
    page.filteredPosts == FilterPosts(page.allPosts, page.searchTerm)
  }

  /** The state before the fetch completes. */
  function Mounted(): (page: Page)
    ensures page.loading && page.allPosts == [] && Consistent(page)
  {
    Page([], [], true, None, "")
  }

  /** The search effect, re-run whenever the term or the fetched list changes. */
  function SearchEffect(page: Page): (r: Page)
    ensures Consistent(r)
    ensures r.allPosts == page.allPosts && r.searchTerm == page.searchTerm
    ensures r.loading == page.loading && r.error == page.error
  {
    page.(filteredPosts := FilterPosts(page.allPosts, page.searchTerm))
  }

  /** The fetch finishing: on success both lists take the fetched posts and the
      search effect re-runs; on failure the error message is set. Loading ends
      either way. */
  function FetchFinished(page: Page, fetched: Outcome<seq<Post>>): (r: Page)
    ensures !r.loading
    ensures Consistent(page) ==> Consistent(r)
    ensures fetched.Done? ==> r.allPosts == fetched.value && r.error == page.error
    ensures fetched.Failed? ==> r.allPosts == page.allPosts && r.error == Some(LoadFailedMessage)
    ensures r.searchTerm == page.searchTerm
  {
    match fetched
    case Done(posts) => SearchEffect(page.(allPosts := posts, filteredPosts := posts, loading := false))
    case Failed(_) => page.(error := Some(LoadFailedMessage), loading := false)
  }

  /** The search box changing. */
  function SearchChanged(page: Page, term: string): (r: Page)
    ensures Consistent(r) && r.searchTerm == term
    ensures r.allPosts == page.allPosts
  {
    SearchEffect(page.(searchTerm := term))
  }

  /** With the initial (empty) term, the list set directly from the fetch is
      already what the search effect computes, so the re-run shows no change. */
  lemma {:induction false} FetchInitialisationAgrees(page: Page, posts: seq<Post>)
    requires page.searchTerm == ""
    ensures FetchFinished(page, Done(posts)).filteredPosts == posts
  {
    FilterEmptyTerm(posts);
  }

  /** A worked example of the filter: searching "soup" among a soup and a
      cake keeps the soup only. */
  lemma SoupExample(soup: Post, cake: Post)
    requires soup.title == "Tom Yum" && soup.content == "spicy soup"
    requires cake.title == "Cake" && cake.content == "sweet dessert"
    ensures FilterPosts([soup, cake], "soup") == [soup]
  {
    LowerNoUpper("soup");
    SoupMatches(soup);
    CakeMisses(cake);
    assert [soup, cake][1..] == [cake];
    assert [cake][1..] == [];
    assert Keep([cake], "soup") == [] + Keep([], "soup") == [];
    assert Keep([soup, cake], "soup") == [soup] + Keep([cake], "soup");
  }

  lemma SoupMatches(soup: Post)
    requires soup.content == "spicy soup"
    ensures Matches(soup, "soup")
  {
    SpicySoupLower();
    SpicySoupIncludes();
  }

  lemma SpicySoupLower()
    ensures Lower("spicy soup") == "spicy soup"
  {
    LowerNoUpper("spicy soup");
  }

  lemma SpicySoupIncludes()
    ensures Includes("spicy soup", "soup")
  {
    assert OccursAt("spicy soup", "soup", 6);
    IncludesIffContains("spicy soup", "soup");
  }

  lemma CakeMisses(cake: Post)
    requires cake.title == "Cake" && cake.content == "sweet dessert"
    ensures !Matches(cake, "soup")
  {
    assert !Includes(Lower(cake.title), "soup") by {
      CakeLower();
      MissingCharExcludes("cake", "soup", 'o');
    }
    assert !Includes(Lower(cake.content), "soup") by {
      DessertLower();
      DessertLacksSoup();
    }
  }

  lemma CakeLower()
    ensures Lower("Cake") == "cake"
  {
  }

  lemma DessertLower()
    ensures Lower("sweet dessert") == "sweet dessert"
  {
    LowerNoUpper("sweet dessert");
  }

  lemma DessertLacksSoup()
    ensures !Includes("sweet dessert", "soup")
  {
    MissingCharExcludes("sweet dessert", "soup", 'o');
  }
}

=== FILE: post_card.dfy ===
/** The like button of a post card (components/post-card.tsx): an optimistic
    counter that is raised before the remote increment and lowered again when
    the increment fails. */
module PostCard {
  import opened Results
  import opened Records
  import opened Effects

  /** `post.likes || 0`: the stored count, or zero when the field is missing. */
  function StoredLikes(post: Post): int {
    match post.likes
    case Some(n) => n
    case None => 0
  }

  /** The remote update `likes: increment(1)`: a missing field counts as zero. */
  function Increment(post: Post): (r: Post)
    ensures r.likes == Some(StoredLikes(post) + 1)
    ensures r.(likes := post.likes) == post
  {
    post.(likes := Some(StoredLikes(post) + 1))
  }

  /** One click of the like button: raise the count, issue the increment
      (whose effect on the stored post is `Increment`), and only once it has
      failed lower the count again and report it. */
  function HandleLike(post: Post, outcome: Outcome<()>): (effects: seq<Effect>)
    ensures |effects| >= 2 && effects[0] == AdjustLikes(1)
    ensures Calls(effects) == [IncrementLikes(post.id)]
    ensures Delta(effects) == if outcome.Done? then 1 else 0
    ensures outcome.Failed? <==> Notify(LikeFailed) in effects
    // the call precedes any rollback; success adds nothing after it
    ensures effects[1] == Issue(IncrementLikes(post.id))
    ensures outcome.Done? ==> |effects| == 2
    ensures Notices(effects) == if outcome.Done? then [] else [LikeFailed]
  {
    var start := [AdjustLikes(1), Issue(IncrementLikes(post.id))];
    assert start[1..][1..] == [];
    assert Delta(start[1..]) == 0;
    assert Delta(start) == 1;
    match outcome
    case Done(_) => start
    case Failed(_) =>
      CallsAppend(start, [AdjustLikes(-1), Notify(LikeFailed)]);
      DeltaAppend(start, [AdjustLikes(-1), Notify(LikeFailed)]);
      NoticesAppend(start, [AdjustLikes(-1), Notify(LikeFailed)]);
      start + [AdjustLikes(-1), Notify(LikeFailed)]
  }

  /** The counter as displayed, with the clicks whose increment is still in flight. */
  datatype Counter = Counter(shown: int, pending: nat)

  /** What happens to the counter: a click (its optimistic raise), or the
      increment of an earlier click settling, successfully or not. */
  datatype Event = Click | Settle(ok: bool)

  /** The counter when the card is first shown. */
  function Initial(post: Post): Counter {
    Counter(StoredLikes(post), 0)
  }

  /** One event. A settlement needs a click still in flight; none is `None`. */
  function Step(c: Counter, e: Event): (r: Option<Counter>)
    ensures r.None? <==> e.Settle? && c.pending == 0
    ensures r.Some? ==> r.value.pending + (if e.Click? then 0 else 1) == c.pending + (if e.Click? then 1 else 0)
    ensures r.Some? ==> r.value.shown == c.shown + (if e.Click? then 1 else if e.ok then 0 else -1)
  {
    match e
    case Click => Some(Counter(c.shown + 1, c.pending + 1))
    case Settle(ok) =>
      if c.pending == 0 then None
      else Some(Counter(if ok then c.shown else c.shown - 1, c.pending - 1))
  }

  /** The events one after another. */
  function Run(c: Counter, events: seq<Event>): Option<Counter>
    decreases |events|
  {
    if events == [] then Some(c)
    else
      match Step(c, events[0])
      case None => None
      case Some(next) => Run(next, events[1..])
  }

  function Clicks(events: seq<Event>): nat {
    if events == [] then 0 else (if events[0] == Click then 1 else 0) + Clicks(events[1..])
  }

  function Failures(events: seq<Event>): nat {
    if events == [] then 0 else (if events[0] == Settle(false) then 1 else 0) + Failures(events[1..])
  }

  function Successes(events: seq<Event>): nat {
    if events == [] then 0 else (if events[0] == Settle(true) then 1 else 0) + Successes(events[1..])
  }

  /** Every settlement, up to any point of `events`, has a click of its own:
      one in flight at the start or one made earlier in `events`. */
  predicate Matched(pending: nat, events: seq<Event>) {
    forall j :: 0 <= j <= |events| ==>
      Failures(events[..j]) + Successes(events[..j]) <= pending + Clicks(events[..j])
  }

  /** The counts of a non-empty prefix: its first event, then the rest. */
  lemma PrefixCounts(events: seq<Event>, j: nat)
    requires 1 <= j <= |events|
    ensures Clicks(events[..j]) == (if events[0] == Click then 1 else 0) + Clicks(events[1..][..j - 1])
    ensures Failures(events[..j]) == (if events[0] == Settle(false) then 1 else 0) + Failures(events[1..][..j - 1])
    ensures Successes(events[..j]) == (if events[0] == Settle(true) then 1 else 0) + Successes(events[1..][..j - 1])
  {
    assert events[..j][0] == events[0];
    assert events[..j][1..] == events[1..][..j - 1];
  }

  /** A run gets stuck exactly when some settlement has no click of its own. */
  lemma {:induction false} RunDefined(c: Counter, events: seq<Event>)
    ensures Run(c, events).Some? <==> Matched(c.pending, events)
    decreases |events|
  {
    if events == [] {
      assert events[..0] == [];
    } else {
      var e := events[0];
      var rest := events[1..];
      assert events[..1] == [e];
      assert [e][1..] == [];
      match Step(c, e)
      case None =>
        assert Failures(events[..1]) + Successes(events[..1]) > c.pending + Clicks(events[..1]);
      case Some(next) =>
        RunDefined(next, rest);
        forall j | 1 <= j <= |events|
          ensures (Failures(events[..j]) + Successes(events[..j]) <= c.pending + Clicks(events[..j]))
              <==> (Failures(rest[..j - 1]) + Successes(rest[..j - 1]) <= next.pending + Clicks(rest[..j - 1]))
        {
          PrefixCounts(events, j);
        }
        assert events[..0] == [];
        if Matched(c.pending, events) {
          forall j | 0 <= j <= |rest|
            ensures Failures(rest[..j]) + Successes(rest[..j]) <= next.pending + Clicks(rest[..j])
          {
            assert Failures(events[..j + 1]) + Successes(events[..j + 1]) <= c.pending + Clicks(events[..j + 1]);
          }
        }
        if Matched(next.pending, rest) {
          forall j | 0 <= j <= |events|
            ensures Failures(events[..j]) + Successes(events[..j]) <= c.pending + Clicks(events[..j])
          {
            if j > 0 {
              assert Failures(rest[..j - 1]) + Successes(rest[..j - 1]) <= next.pending + Clicks(rest[..j - 1]);
            }
          }
        }
    }
  }

  /** Over any interleaving of clicks and settlements, the count shown is the
      start plus the clicks minus the failures, and the clicks in flight are
      those not yet settled. */
  lemma {:induction false} RunCounts(c: Counter, events: seq<Event>)
    requires Run(c, events).Some?
    ensures var d := Run(c, events).value;
      && d.shown == c.shown + Clicks(events) - Failures(events)
      && d.pending == c.pending + Clicks(events) - Failures(events) - Successes(events)
    decreases |events|
  {
    if events != [] {
      RunCounts(Step(c, events[0]).value, events[1..]);
    }
  }

  /** From the card's initial state the count never drops below the stored
      count, and once nothing is in flight it exceeds it by exactly the
      increments the store accepted. */
  lemma NeverBelowInitial(post: Post, events: seq<Event>)
    requires Run(Initial(post), events).Some?
    ensures Run(Initial(post), events).value.shown >= StoredLikes(post)
    ensures Run(Initial(post), events).value.pending == 0 ==>
      Run(Initial(post), events).value.shown == StoredLikes(post) + Successes(events)
  {
    RunCounts(Initial(post), events);
  }

  /** A click followed by its own settlement moves the count by what the
      handler's trace adjusts it by: one on success, nothing on failure. */
  lemma ClickThenSettle(post: Post, c: Counter, outcome: Outcome<()>)
    ensures Run(c, [Click, Settle(outcome.Done?)]) == Some(Counter(c.shown + Delta(HandleLike(post, outcome)), c.pending))
  {
    var events := [Click, Settle(outcome.Done?)];
    var clicked := Counter(c.shown + 1, c.pending + 1);
    assert events[1..] == [Settle(outcome.Done?)];
    assert events[1..][1..] == [];
    assert Run(c, events) == Run(clicked, [Settle(outcome.Done?)]);
    var delta := Delta(HandleLike(post, outcome));
    assert Step(clicked, Settle(outcome.Done?)) == Some(Counter(c.shown + delta, c.pending));
  }
}

=== FILE: records.dfy ===
/** The documents of the two collections, as written and as read back. */
module Records {
  import opened Results

  /** A post as read from the `posts` collection: the document id joined with
      its fields. `likes` and `imageUrl` may be missing from a document. */
  datatype Post = Post(
    id: string,
    title: string,
    content: string,
    author: string,
    createdAt: nat,
    likes: Option<int>,
    imageUrl: Option<string>)

  /** The fields written when a post is created; `imageUrl: None` is a stored null. */
  datatype NewPost = NewPost(
    title: string,
    content: string,
    author: string,
    createdAt: nat,
    likes: int,
    imageUrl: Option<string>)

  /** The fields written when a comment is created. `createdAt` is the
      reading of the timestamp clock at the moment of the write. */
  datatype NewComment = NewComment(
    postId: string,
    author: string,
    content: string,
    createdAt: nat)

  /** A comment document delivered by a query snapshot: its id and its fields. */
  datatype CommentDoc = CommentDoc(id: string, data: NewComment)

  /** A comment as the comment section holds it. */
  datatype Comment = Comment(
    id: string,
    postId: string,
    author: string,
    content: string,
    createdAt: nat)
}

=== FILE: results.dfy ===
/** Optional values and the outcome of a call into the hosted backend. */
module Results {

  /** A value that may be absent (a TypeScript `undefined` or `null`). */
  datatype Option<+T> = None | Some(value: T)

  /** What an awaited backend call produced: its value, or a rejection that may
      carry the backend's error code (`error.code`). */
  datatype Outcome<+T> = Done(value: T) | Failed(code: Option<string>)
}

=== FILE: text.dfy ===
/** The string operations the handlers rely on: `toLowerCase`, `includes`,
    `trim` and the decimal rendering of a number inside a template literal. */
module Text {

  /** An ASCII upper-case letter. */
  predicate IsUpper(c: char) {
    'A' <= c <= 'Z'
  }

  /** `toLowerCase` on one character, restricted to ASCII letters. */
  function LowerChar(c: char): (r: char)
    ensures !IsUpper(r)
    ensures IsUpper(c) ==> r as int == c as int + 32
    ensures !IsUpper(c) ==> r == c
  {
    if IsUpper(c) then (c as int + 32) as char else c
  }

  /** `toLowerCase` on a string: every character lowered, nothing else changes. */
  function Lower(s: string): (r: string)
    ensures |r| == |s|
    ensures forall i :: 0 <= i < |s| ==> r[i] == LowerChar(s[i])
  {
    if s == [] then [] else [LowerChar(s[0])] + Lower(s[1..])
  }

  /** Lowering twice is lowering once. */
  lemma LowerIdempotent(s: string)
    ensures Lower(Lower(s)) == Lower(s)
  {
    var l := Lower(s);
    assert forall i :: 0 <= i < |l| ==> LowerChar(l[i]) == l[i];
  }

  /** A string without upper-case letters is its own lower-case form. */
  lemma LowerNoUpper(s: string)
    requires forall i :: 0 <= i < |s| ==> !IsUpper(s[i])
    ensures Lower(s) == s
  {
  }

  /** Two strings that differ only in the case of ASCII letters. */
  predicate SameIgnoringCase(a: string, b: string) {
    |a| == |b| && forall i :: 0 <= i < |a| ==> LowerChar(a[i]) == LowerChar(b[i])
  }

  /** Strings equal up to ASCII case have the same lower-case form, and conversely. */
  lemma LowerEqualIff(a: string, b: string)
    ensures Lower(a) == Lower(b) <==> SameIgnoringCase(a, b)
  {
    if SameIgnoringCase(a, b) {
      assert forall i :: 0 <= i < |a| ==> Lower(a)[i] == Lower(b)[i];
    }
    if Lower(a) == Lower(b) {
      assert forall i :: 0 <= i < |a| ==> LowerChar(a[i]) == Lower(a)[i] == Lower(b)[i] == LowerChar(b[i]);
    }
  }

  /** `t` occurs in `s` starting at position `i`. */
  predicate OccursAt(s: string, t: string, i: int) {
    0 <= i && i + |t| <= |s| && s[i..i + |t|] == t
  }

  /** The declarative meaning of `s.includes(t)`: `t` occurs somewhere in `s`. */
  predicate Contains(s: string, t: string) {
    exists i | 0 <= i <= |s| :: OccursAt(s, t, i)
  }

  /** `s.includes(t)` as a left-to-right scan. */
  predicate Includes(s: string, t: string) {
    t <= s || (s != [] && Includes(s[1..], t))
  }

  /** The scan finds `t` exactly when `t` occurs in `s`. */
  lemma {:induction false} IncludesIffContains(s: string, t: string)
    ensures Includes(s, t) <==> Contains(s, t)
  {
    if t <= s {
      assert OccursAt(s, t, 0);
    } else if s != [] {
      IncludesIffContains(s[1..], t);
      if Includes(s[1..], t) {
        var j :| 0 <= j <= |s[1..]| && OccursAt(s[1..], t, j);
        assert s[1..][j..j + |t|] == s[j + 1..j + 1 + |t|];
        assert OccursAt(s, t, j + 1);
      }
      if Contains(s, t) {
        var i :| 0 <= i <= |s| && OccursAt(s, t, i);
        assert i != 0;
        assert s[1..][i - 1..i - 1 + |t|] == s[i..i + |t|];
        assert OccursAt(s[1..], t, i - 1);
      }
    }
  }

  /** A string lacking one of the characters of `t` does not include `t`. */
  lemma MissingCharExcludes(s: string, t: string, c: char)
    requires c in t && c !in s
    ensures !Includes(s, t)
  {
    IncludesIffContains(s, t);
    ContainedCharsOccur(s, t);
  }

  /** Every character of an included string is a character of the including one. */
  lemma ContainedCharsOccur(s: string, t: string)
    ensures Contains(s, t) ==> forall x :: x in t ==> x in s
  {
    if Contains(s, t) {
      var i :| 0 <= i <= |s| && OccursAt(s, t, i);
      forall x | x in t
        ensures x in s
      {
        var k :| 0 <= k < |t| && t[k] == x;
        assert s[i + k] == x;
      }
    }
  }

  /** The characters `trim` removes: ECMAScript's WhiteSpace (tab, vertical tab,
      form feed, the byte-order mark and every space separator) and
      LineTerminator (line feed, carriage return, U+2028, U+2029). */
  predicate IsSpace(c: char) {
    var n := c as int;
    n == 0x09 || n == 0x0A || n == 0x0B || n == 0x0C || n == 0x0D || n == 0x20
    || n == 0xA0 || n == 0x1680 || (0x2000 <= n <= 0x200A) || n == 0x2028
    || n == 0x2029 || n == 0x202F || n == 0x205F || n == 0x3000 || n == 0xFEFF
  }

  /** `s` with its longest all-space prefix removed. */
  function TrimStart(s: string): (r: string)
    ensures |r| <= |s| && r == s[|s| - |r|..]
    ensures forall k :: 0 <= k < |s| - |r| ==> IsSpace(s[k])
    ensures r == [] || !IsSpace(s[|s| - |r|])
  {
    if s != [] && IsSpace(s[0]) then TrimStart(s[1..]) else s
  }

  /** `s` with its longest all-space suffix removed. */
  function TrimEnd(s: string): (r: string)
    ensures |r| <= |s| && r == s[..|r|]
    ensures forall k :: |r| <= k < |s| ==> IsSpace(s[k])
    ensures r == [] || !IsSpace(r[|r| - 1])
  {
    if s != [] && IsSpace(s[|s| - 1]) then TrimEnd(s[..|s| - 1]) else s
  }

  /** `s` is `r` at offset `i`, with nothing but space characters before and
      after it. */
  predicate SpaceAround(s: string, r: string, i: int) {
    && 0 <= i && i + |r| <= |s| && s[i..i + |r|] == r
    && (forall k :: 0 <= k < i ==> IsSpace(s[k]))
    && (forall k :: i + |r| <= k < |s| ==> IsSpace(s[k]))
  }

  /** Neither the first nor the last character is a space character. */
  predicate Trimmed(r: string) {
    r == [] || (!IsSpace(r[0]) && !IsSpace(r[|r| - 1]))
  }

  /** `trim`: both ends stripped of space characters. */
  function Trim(s: string): (r: string)
    ensures Trimmed(r)
    ensures exists i :: SpaceAround(s, r, i)
    ensures Contains(s, r)
  {
    var a := TrimStart(s);
    var r := TrimEnd(a);
    assert OccursAt(s, r, |s| - |a|);
    assert SpaceAround(s, r, |s| - |a|);
    r
  }

  /** The contract of `Trim` determines its result: any string that sits in
      `s` between runs of space characters and is empty or bounded by
      non-space characters is the trimmed string. */
  lemma TrimUnique(s: string, r: string, i: int)
    requires SpaceAround(s, r, i)
    requires Trimmed(r)
    ensures r == Trim(s)
  {
    var t := Trim(s);
    var j :| SpaceAround(s, t, j);
    TrimEmptyIff(s);
    if r == [] {
      forall k | 0 <= k < |s| ensures IsSpace(s[k]) {
        if k >= i { assert i + |r| <= k; }
      }
    } else {
      assert s[i] == r[0];
      SameBounds(s, r, i, t, j);
    }
  }

  /** Two non-empty strings with non-space ends, each sitting in `s` between
      runs of space characters, sit at the same place. */
  lemma SameBounds(s: string, r: string, i: int, t: string, j: int)
    requires SpaceAround(s, r, i) && SpaceAround(s, t, j)
    requires Trimmed(r) && Trimmed(t) && r != [] && t != []
    ensures i == j && r == t
  {
    assert s[i] == r[0] && s[i + |r| - 1] == r[|r| - 1];
    assert s[j] == t[0] && s[j + |t| - 1] == t[|t| - 1];
    assert i <= j && j <= i;
    assert i + |r| - 1 < j + |t| && j + |t| - 1 < i + |r|;
  }

  /** A string trims to nothing exactly when it consists of space characters only. */
  lemma TrimEmptyIff(s: string)
    ensures Trim(s) == [] <==> forall k :: 0 <= k < |s| ==> IsSpace(s[k])
  {
    var a := TrimStart(s);
    if Trim(s) == [] {
      assert a == [];
    }
  }

  /** Trimming an already trimmed string changes nothing. */
  lemma TrimIdempotent(s: string)
    ensures Trim(Trim(s)) == Trim(s)
  {
    var r := Trim(s);
    if r != [] {
      assert TrimStart(r) == r;
      assert TrimEnd(r) == r;
    }
  }

  /** A decimal digit character. */
  predicate IsDigit(c: char) {
    '0' <= c <= '9'
  }

  /** The character for a digit value. */
  function DigitChar(d: nat): (c: char)
    requires d < 10
    ensures IsDigit(c)
  {
    ('0' as int + d) as char
  }

  /** A number written in a template literal: its shortest decimal numeral. */
  function Decimal(n: nat): (r: string)
    ensures r != []
    ensures forall i :: 0 <= i < |r| ==> IsDigit(r[i])
    ensures n >= 10 ==> r[0] != '0'
  {
    if n < 10 then [DigitChar(n)] else Decimal(n / 10) + [DigitChar(n % 10)]
  }

  /** The value of one digit character. */
  function DigitValue(c: char): (d: nat)
    requires IsDigit(c)
    ensures d < 10 && DigitChar(d) == c
  {
    c as int - '0' as int
  }

  /** The value of a string of digits. */
  function ParseDecimal(s: string): nat
    requires forall i :: 0 <= i < |s| ==> IsDigit(s[i])
  {
    if s == [] then 0 else ParseDecimal(s[..|s| - 1]) * 10 + DigitValue(s[|s| - 1])
  }

  /** Reading back a decimal numeral gives the number that was written. */
  lemma {:induction false} DecimalRoundTrip(n: nat)
    ensures ParseDecimal(Decimal(n)) == n
  {
    var r := Decimal(n);
    if n >= 10 {
      DecimalRoundTrip(n / 10);
      assert r[..|r| - 1] == Decimal(n / 10);
    }
  }
}
